=== FILE: README.md ===
# Hestia job scheduling, modelled in Dafny

Hestia is a Discord bot that lets server members schedule "create an event"
actions, either once or repeating daily or weekly, and list or cancel their
recurring schedules. This project models its scheduling core:

- `scheduler.dfy` (module `Scheduler`): job frequencies and their interval
  parameters, the `Job` record and its description, and the scheduler state.
  The external trigger engine is reduced to the set of trigger ids it holds.
  The in-memory job cache is a map from user id to that user's jobs in
  insertion order, plus the dictionary's key insertion order, which listing
  every job follows. The cache operations are `GetAll`, `Find`,
  `CreateOneoff`, `CreateInterval` and `Remove`.
- `events.py` logic in `events.dfy` (module `Events`): validating and planning
  a schedule request (`PlanSchedule`), carrying the plan out (`ApplyPlan`,
  `CreateEventSchedule`), the job id format, the administrator/user choice of
  the listing command (`Schedules`), and the start/end chosen when a recurring
  job fires (`NextOccurrence`).
- `job_view.dfy` (module `JobView`): the job-list view as a state machine over
  the items shown (selection list, Remove button, Cancel button), the value
  chosen, and the one side effect, unscheduling the chosen job.
- `text.dfy` (module `Text`): the decimal rendering of ids (`str(int)`), its
  inverse, and splitting at a separator. `wrappers.dfy` holds `Option`.

Times are integer seconds of local wall-clock time in the bot's time zone. A
lead of `h` hours is `h * 3600` seconds. The clock reading `now` is an explicit
parameter, so every computation is a function of its inputs: the same inputs
give the same plan and the same occurrence.

The model follows the code as written:

- The cache is keyed by user only, not by guild and then user.
- `find` returns `None`, not an empty list, for a user with no entry.
- Removing a job whose user has no entry raises `KeyError`, after the trigger
  has already been removed. It is not a no-op.
- A recurring firing does not restore the first start's time of day (see
  Findings).
- A DAILY/WEEKLY request fails while its job record is built, so nothing is
  scheduled (see Findings). `Events.CreateEventScheduleAsWritten` models this;
  `Events.CreateEventSchedule` models the evidently intended command.
- A second registration with the same id appends a second record to the
  user's list, if the engine accepts the second add. The cache never
  replaces or rejects it.

## Model

| member | source | states |
|---|---|---|
| Scheduler.FrequencyFromValue | hestia/scheduler.py:32-36 | a frequency is built only from its own value (`once`, `weekly`, `daily`); any other text names no frequency |
| Scheduler.FrequencyValueRoundTrip | hestia/scheduler.py:32-36 | every frequency is recovered from its value |
| Scheduler.IntervalParameters | hestia/scheduler.py:38-48 | days is 1 exactly for DAILY and 0 otherwise; weeks is 1 exactly for WEEKLY and 0 otherwise; ONCE is the only non-interval frequency, and an interval frequency has exactly one of days/weeks equal to 1 |
| Scheduler.DescriptionDeterminesFrequencyAndUser | hestia/scheduler.py:69-70 | two jobs with the same description text have the same frequency and the same username, so the `Frequency: <freq> -- User: <username>` text is unambiguous |
| Scheduler.InitialIsEmpty | hestia/scheduler.py:26-29 | at start-up the engine holds no trigger, the cache is well formed, listing every job gives an empty list, and finding any user gives `None` |
| Scheduler.Find | hestia/scheduler.py:78-80 | finding a user gives `None` exactly when the user has no entry, and otherwise that user's list as stored |
| Scheduler.GetAll | hestia/scheduler.py:73-75 | every listed job is held in some user's list |
| Scheduler.GetAllMembership | hestia/scheduler.py:73-75 | a job is listed exactly when some user's list holds it |
| Scheduler.CreateOneoff | hestia/scheduler.py:83-98 | the job id becomes a trigger, no other trigger changes, and the cache is untouched |
| Scheduler.CreateInterval | hestia/scheduler.py:101-125 | the job id becomes a trigger; the user's list becomes its previous contents (empty when the user had none) followed by the job; every other user's list is unchanged; a new user is added last in key order; the cache stays well formed |
| Scheduler.CreateIntervalGetAll | hestia/scheduler.py:120-125 | listing all jobs after a registration gives the previous jobs plus exactly the new one |
| Scheduler.CreateIntervalGetAllNewUser | hestia/scheduler.py:123-125 | for a user's first job, listing all jobs gives the previous listing with the new job appended |
| Scheduler.CreateIntervalTwice | hestia/scheduler.py:120-125 | registering the same job twice leaves one trigger id but two records at the end of the user's list |
| Scheduler.CreateIntervalFiledByOwner | hestia/scheduler.py:123-125 | registration keeps every cached job filed under its own requester |
| Scheduler.WithoutId | hestia/scheduler.py:131 | the filtered list holds exactly the jobs whose id differs, and is no longer than the original |
| Scheduler.WithoutIdConcat | hestia/scheduler.py:131 | filtering a concatenation filters each part, so the kept jobs stay in their original relative order |
| Scheduler.WithoutIdIdempotent | hestia/scheduler.py:131 | filtering twice by the same id is the same as filtering once |
| Scheduler.Remove | hestia/scheduler.py:128-131 | an unknown trigger id fails with JobLookupError and changes nothing; otherwise the trigger is removed; a user with no entry then fails with KeyError, cache unchanged; otherwise the user's list loses every job with that id and keeps the rest in order, and every other user's list is unchanged |
| Scheduler.RemoveErasesId | hestia/scheduler.py:128-131 | when the cached jobs with that id all belong to the user, no listed job has the id after a successful removal, and every job with another id is still listed |
| Scheduler.RemoveFiledByOwner | hestia/scheduler.py:128-131 | removal keeps every cached job filed under its own requester |
| Scheduler.FindAfterLastRemoval | hestia/scheduler.py:78-80 | after a user's only job is registered and removed, the trigger is gone and finding the user's jobs gives an empty list, not `None` |
| Text.NatToString | hestia/cogs/events.py:86-87 | the decimal text of a number is non-empty, all digits, and starts with 0 only for zero |
| Text.ParseNatToString | hestia/cogs/events.py:86-87 | reading back the decimal text of a number gives that number |
| Events.JobIdRoundTrip | hestia/cogs/events.py:86-87 | the guild, user and interaction numbers are read back from a job id, so the `<guild>_<user>_<interaction>` format is unambiguous |
| Events.JobIdInjective | hestia/cogs/events.py:86-87 | different guild, user or interaction numbers give different job ids |
| Events.PlanSchedule | hestia/cogs/events.py:72-123 | the request is refused exactly when the number of locations given is not one ("Please provide exactly one location") or the one location is offline without an end time ("Offline locations need a end datetime"); each refusal carries its own message; otherwise the job id is `<guild>_<user>_<interaction>`, the event arguments carry the guild id, the event name and the one location given, the end time is kept for an offline location and dropped for a channel; a ONCE request plans a one-off trigger whose run time is the lead start or now, whichever is later; a DAILY/WEEKLY request plans an interval trigger anchored at the lead start, first run at the later of it and now, with the job and the first start, first end and lead hours for later firings |
| Events.ApplyPlan | hestia/cogs/events.py:94-123 | a refused plan changes nothing; a one-off plan adds its trigger and leaves the cache alone; an interval plan adds its trigger and appends its job to its requester's list |
| Events.CreateEventSchedule | hestia/cogs/events.py:72-124 | a refused request leaves the scheduler unchanged and replies with the reason; an accepted one replies "Successfully created schedule", carries out its plan, and its job id is a trigger; an accepted DAILY/WEEKLY request appends its planned job to the end of its requester's list; a ONCE request never touches the cache. This is the command as evidently intended; see `Events.CreateEventScheduleAsWritten` |
| Events.CreateEventScheduleAsWritten | hestia/cogs/events.py:104-112 | as the code runs: a DAILY/WEEKLY request fails while its job record is built, so it replies "Internal Error." and changes nothing; every other request behaves as `Events.CreateEventSchedule`; the cache is never changed |
| Events.RecurringRequestFailsAsWritten | hestia/cogs/events.py:105-112 | a weekly request in a voice channel gets "Internal Error." and caches nothing as written, while the intended command replies with success and caches the job for its requester |
| Events.Schedules | hestia/cogs/events.py:148-158 | an administrator gets all cached jobs and anyone else their own; the listing fails exactly for a non-administrator with no entry; it replies "These are no scheduled jobs" exactly when the jobs listed are none, and "These are the scheduled jobs" otherwise, and then shows a fresh view with one option per listed job |
| Events.RegisteredJobIsListed | hestia/cogs/events.py:152-158 | after a registration, the requester's listing shows the new job as its last option |
| Events.RegisteredJobIsListedForAdmin | hestia/cogs/events.py:150-158 | after a registration, an administrator's listing offers the new job |
| Events.NextOccurrence | hestia/cogs/events.py:210-222 | before the first start, the first start and end are used unchanged; afterwards the start is now plus the lead hours; an end exists exactly when a first end does, and the duration of the first event is kept; with a non-negative lead the start is never before now |
| Events.AnchoredOccurrence | hestia/cogs/events.py:210-222 | the corrected firing computation: after the first start, the start has the first start's time of day, on the day the lead time from now falls on; the duration and the before-first-start case are as in the code |
| Events.ReplaceDiscardedLosesTimeOfDay | hestia/cogs/events.py:215-220 | for a first event 18:00-20:00, one hour of lead, fired at 09:00 on day 74, the code starts the event at 10:00, while the corrected computation starts it at 18:00 |
| Events.AnchoredOccurrenceMayPrecedeNow | hestia/cogs/events.py:215-220 | with a first start at 08:00, one hour of lead and a firing at 09:00 the same day, the corrected computation starts the event at 08:00, before the firing, while the code as written starts it at 10:00 |
| JobView.Options | hestia/views/job.py:59-61 | one option per job, in job order, the i-th built from the i-th job with its name as label, its id as value and its description as description |
| JobView.OffersJobIds | hestia/views/job.py:93-96 | a selection list built from jobs offers a value exactly when it is the id of one of those jobs |
| JobView.Step | hestia/views/job.py:41-90 | choosing is accepted exactly when the list is shown and the value is offered, and records the value without unscheduling; Cancel is accepted exactly when its button is shown, and then shows only the selection list and unschedules nothing; Remove is accepted exactly when its button is shown after a choice, and then clears every item and unschedules the chosen value; no other step unschedules; a cleared view accepts no further interaction |
| JobView.ChooseShowsButtons | hestia/views/job.py:47-49 | choosing an offered job from the list hides the list and shows exactly Remove then Cancel |
| JobView.ChooseThenRemove | hestia/views/job.py:67-71 | choosing a listed job and pressing Remove clears the view and unschedules exactly that job |
| JobView.ChooseThenCancel | hestia/views/job.py:80-83 | choosing a listed job and pressing Cancel shows the selection list alone again and unschedules nothing |
| JobView.StepKeepsShape | hestia/views/job.py:41-90 | every step keeps the view in one of its three shapes (list alone; Remove and Cancel after a valid choice; nothing), and only an offered id is unscheduled |
| JobView.RunUnschedulesAtMostOnce | hestia/views/job.py:67-83 | over any sequence of interactions a view unschedules at most one job, always one it offered, and a cleared view unschedules nothing |
| JobView.NewViewUnschedulesListedJob | hestia/views/job.py:22-30 | a view built from a job list unschedules at most one job, and that job is one of the listed jobs |

## Left out

- Discord I/O: replies, message edits and their content, event creation on
  the guild (`_create_single_event`), and the command option declarations.
  Replies become reply text; the view's removal becomes an `Unschedule` effect.
- Trigger engine internals: timing, firing, removal of fired one-off
  triggers, and the engine's policy for a duplicate id. Adding a trigger is
  set insertion. Whether the engine would refuse a second add of the same id
  is the library's choice and is not modelled.
- Clock, time zones and date parsing (`now`, `DateConverter`): times are
  integer wall-clock seconds and `now` is a parameter. Daylight-saving gaps
  are not modelled.
- The permission check `can_manage_events` and the administrator flag: the
  flag is a boolean parameter of `Schedules`.
- `create_event_schedule_error`: only its fallback reply "Internal Error."
  (hestia/cogs/events.py:139-141) is modelled, in
  `Events.CreateEventScheduleAsWritten`. Its replies for a bad argument
  (lines 133-134) and for an HTTP 400 (lines 135-138) are left out, along
  with date parsing and Discord I/O.
- The bot start-up in `hestia/main.py`: framework glue with no logic of its
  own.
- Events.AnchoredOccurrence: does not promise a start at or after `now`; a
  firing later in the day than the first start, with a lead that stays on the
  same day, starts the event earlier that day (`AnchoredOccurrenceMayPrecedeNow`).
- `Job.create_date`: evaluated once at import and never read.
- The `repeat` argument is a `JobFrequency`: the command's `choices` limit it
  to the three values. `FrequencyFromValue` models building the frequency
  from its text.
- `elif freq.is_interval` tests the method itself, which is always true. Since
  the only non-ONCE frequencies are DAILY and WEEKLY, this equals calling it.
- Events.CreateEventSchedule: models the command as evidently intended, not
  as it runs. `Job(..., guild_id=...)` passes a field the record does not
  declare, so every DAILY/WEEKLY request raises a type error before its
  trigger is registered and gets "Internal Error." (see Findings and
  `Events.CreateEventScheduleAsWritten`).
- Events.Schedules: models the listing with `get_all()` and `find(user_id)`
  at their declared signatures. The code calls them with an extra guild
  argument, so as written every listing raises a type error and nothing is
  listed.
- JobView.Step: models the view as evidently intended, not as it runs. The
  selection callback changes the items and then raises, because `sch.get`
  does not exist (and `job.message` would not either). This happens before
  the message is edited, so the Remove and Cancel buttons never reach the
  user. The Remove callback clears the items and then raises a type error,
  because `sch.remove` is called with one argument instead of two. So as
  written nothing is ever unscheduled from the view; the model's
  `Unschedule(id)` effect is the removal the callback evidently intends.
- JobView.ChooseThenRemove: states the intended choose-then-remove sequence.
  As written the choice already raises (`sch.get`), and the Remove callback
  would raise a type error (`sch.remove` with one argument), so no job is
  unscheduled.
- View timeout and Discord's limits on option count and text length belong
  to the framework and are not modelled.

## Findings

| source | as written | input that shows it | evidently intended | confidence | as-written member | corrected member |
|---|---|---|---|---|---|---|
| hestia/cogs/events.py:216-220 | `start_date.replace(hour=..., minute=..., second=...)` returns a new datetime, and the result is discarded, so a recurring firing starts `hours_until` after now at whatever time of day that is | first event 18:00-20:00 on day 0, weekly, one hour of lead, fired at 09:00 on day 74: the event is created for 10:00-12:00 | the event starts at the first start's time of day (18:00-20:00) on the day the lead time falls on | high; not executed | Events.ReplaceDiscardedLosesTimeOfDay | Events.AnchoredOccurrence |
| hestia/cogs/events.py:105-112 | the job record is built with a `guild_id` keyword that the job dataclass does not declare, which raises a type error before the interval trigger is registered; the error handler replies "Internal Error." | a weekly request for voice channel 7 by user 2 in guild 1: nothing is scheduled and the reply is "Internal Error." | the interval trigger is registered, the job is appended to its requester's list, and the reply is "Successfully created schedule" | high; not executed | Events.RecurringRequestFailsAsWritten | Events.CreateEventSchedule |

`Events.NextOccurrence` stays the model of the firing code as written.
`Events.AnchoredOccurrence` is the corrected definition, and its time of day
is proved. Nothing else in the model depends on which of the two is used.
Keeping the time of day can put the start before the firing time: a first
start at 08:00 with one hour of lead, fired at 09:00, gives 08:00
(`Events.AnchoredOccurrenceMayPrecedeNow`), so a full correction would also
move such a start to the next day.
`Events.CreateEventScheduleAsWritten` models the command as written, and
`Events.CreateEventSchedule`, the corrected command, is the one the rest of
the model uses.

=== FILE: events.dfy ===
/**
 The event commands: planning a schedule request, listing scheduled jobs, and
 choosing the start and end of an event when a recurring job fires.

 Times are integer seconds of local wall-clock time in the bot's time zone,
 and the clock reading `now` is a parameter. The chat framework's replies are
 reduced to the reply text, and scheduling to the scheduler model.
 */
module Events {
  import opened Wrappers
  import opened Text
  import opened Scheduler
  import JobView

  const SecondsPerHour := 3600
  const SecondsPerDay := 86400

  const ExactlyOneLocation := "Please provide exactly one location"
  const OfflineNeedsEnd := "Offline locations need a end datetime"
  const ScheduleCreated := "Successfully created schedule"
  const NoScheduledJobs := "These are no scheduled jobs"
  const ScheduledJobs := "These are the scheduled jobs"
  const InternalError := "Internal Error."

  /** Where an event takes place: a stage channel, a voice channel, or an address. */
  datatype Location = Stage(stageChannel: nat) | Voice(voiceChannel: nat) | Offline(address: string)

  /** The arguments of the schedule command; each location is optional. */
  datatype Request = Request(
    name: string,
    startDatetime: int,
    repeat: JobFrequency,
    hoursBefore: int,
    stageLoc: Option<nat>,
    voiceLoc: Option<nat>,
    offlineLoc: Option<string>,
    endDatetime: Option<int>)

  /** Who asked, in which guild, through which interaction, and when. */
  datatype Context = Context(guildId: nat, userId: nat, interactionId: nat, username: string, now: int)

  /** What a one-off job passes to the event creation when it fires. */
  datatype OneOffArgs = OneOffArgs(
    guildId: nat, eventName: string, location: Location, startDatetime: int, endDatetime: Option<int>)

  /** What an interval job passes to the event creation each time it fires. */
  datatype IntervalArgs = IntervalArgs(
    guildId: nat, eventName: string, location: Location, firstStart: int, firstEnd: Option<int>, hoursUntil: int)

  /** The outcome of planning: a refusal, a one-off trigger, or an interval trigger with its job. */
  datatype Plan =
    | Error(msg: string)
    | OneOff(jobId: string, runDate: int, oneOffArgs: OneOffArgs)
    | Interval(job: Job, startDate: int, nextRunTime: int, intervalArgs: IntervalArgs)

  /** The locations given, in the order stage, voice, offline. */
  function Locations(req: Request): seq<Location> {
    (if req.stageLoc.Some? then [Stage(req.stageLoc.value)] else [])
    + (if req.voiceLoc.Some? then [Voice(req.voiceLoc.value)] else [])
    + (if req.offlineLoc.Some? then [Offline(req.offlineLoc.value)] else [])
  }

  function Max(a: int, b: int): (m: int)
    ensures m >= a && m >= b
    ensures m == a || m == b
  {
    if a >= b then a else b
  }

  /** The three numbers a job id is made of. */
  datatype JobKey = JobKey(guildId: nat, userId: nat, interactionId: nat)

  /** The job id: guild, user and interaction ids in decimal, joined by underscores. */
  function JobId(k: JobKey): string {
    NatToString(k.guildId) + "_" + NatToString(k.userId) + "_" + NatToString(k.interactionId)
  }

  /** Reads a job id back into its three numbers. */
  function ParseJobId(id: string): Option<JobKey> {
    var parts := Split(id, '_');
    if |parts| != 3 then None
    else
      match (ParseNat(parts[0]), ParseNat(parts[1]), ParseNat(parts[2]))
      case (Some(g), Some(u), Some(i)) => Some(JobKey(g, u, i))
      case _ => None
  }

  /** The id format is unambiguous: the three numbers are read back from the id. */
  lemma JobIdRoundTrip(k: JobKey)
    ensures ParseJobId(JobId(k)) == Some(k)
  {
    var gs, us, ns := NatToString(k.guildId), NatToString(k.userId), NatToString(k.interactionId);
    DigitsAreFree(gs, '_');
    DigitsAreFree(us, '_');
    DigitsAreFree(ns, '_');
    assert JobId(k) == gs + ['_'] + (us + ['_'] + ns);
    SplitAfterPiece(gs, '_', us + ['_'] + ns);
    SplitAfterPiece(us, '_', ns);
    assert Split(JobId(k), '_') == [gs, us, ns];
    ParseNatToString(k.guildId);
    ParseNatToString(k.userId);
    ParseNatToString(k.interactionId);
  }

  /** Two interactions with different guild, user or interaction ids get different job ids. */
  lemma JobIdInjective(a: JobKey, b: JobKey)
    requires JobId(a) == JobId(b)
    ensures a == b
  {
    JobIdRoundTrip(a);
    JobIdRoundTrip(b);
  }

  /**
   Validates and plans a schedule request. Exactly one location must be given;
   an offline location needs an end time and a channel location drops it. The
   first firing is the start moved earlier by the lead hours, but never before
   `now`. A one-off request only gets a trigger; a recurring one also gets a job.
   */
  function PlanSchedule(req: Request, ctx: Context): (p: Plan)
    ensures p.Error? <==> |Locations(req)| != 1 || (req.offlineLoc.Some? && req.endDatetime.None?)
    ensures |Locations(req)| != 1 ==> p == Error(ExactlyOneLocation)
    ensures |Locations(req)| == 1 && req.offlineLoc.Some? && req.endDatetime.None? ==> p == Error(OfflineNeedsEnd)
    ensures p.OneOff? <==> !p.Error? && req.repeat == Once
    ensures p.Interval? <==> !p.Error? && req.repeat.IsInterval()
    ensures p.OneOff? ==>
      && p.jobId == JobId(JobKey(ctx.guildId, ctx.userId, ctx.interactionId))
      && p.runDate >= ctx.now
      && p.runDate >= req.startDatetime - req.hoursBefore * SecondsPerHour
      && (p.runDate == ctx.now || p.runDate == req.startDatetime - req.hoursBefore * SecondsPerHour)
      && p.oneOffArgs.guildId == ctx.guildId
      && p.oneOffArgs.eventName == req.name
      && Locations(req) == [p.oneOffArgs.location]
      && p.oneOffArgs.startDatetime == req.startDatetime
      && p.oneOffArgs.endDatetime == (if req.offlineLoc.Some? then req.endDatetime else None)
    ensures p.Interval? ==>
      && p.job.id == JobId(JobKey(ctx.guildId, ctx.userId, ctx.interactionId))
      && p.job.freq == req.repeat
      && p.job.userId == NatToString(ctx.userId)
      && p.job.username == ctx.username
      && p.job.name == "Create event '" + req.name + "'"
      && p.startDate == req.startDatetime - req.hoursBefore * SecondsPerHour
      && p.nextRunTime >= ctx.now && p.nextRunTime >= p.startDate
      && (p.nextRunTime == ctx.now || p.nextRunTime == p.startDate)
      && p.intervalArgs.guildId == ctx.guildId
      && p.intervalArgs.eventName == req.name
      && Locations(req) == [p.intervalArgs.location]
      && p.intervalArgs.firstStart == req.startDatetime
      && p.intervalArgs.firstEnd == (if req.offlineLoc.Some? then req.endDatetime else None)
      && p.intervalArgs.hoursUntil == req.hoursBefore
    ensures p.OneOff? && req.offlineLoc.Some? ==> p.oneOffArgs.endDatetime.Some?
    ensures p.Interval? && req.offlineLoc.Some? ==> p.intervalArgs.firstEnd.Some?
  {
    var locs := Locations(req);
    if |locs| != 1 then Error(ExactlyOneLocation)
    else
      var location := locs[0];
      if location.Offline? && req.endDatetime.None? then Error(OfflineNeedsEnd)
      else
        var end := if location.Offline? then req.endDatetime else None;
        var jobId := JobId(JobKey(ctx.guildId, ctx.userId, ctx.interactionId));
        var leadStart := req.startDatetime - req.hoursBefore * SecondsPerHour;
        if req.repeat == Once then
          OneOff(jobId, Max(leadStart, ctx.now),
                 OneOffArgs(ctx.guildId, req.name, location, req.startDatetime, end))
        else
          Interval(Job(jobId, "Create event '" + req.name + "'", req.repeat, NatToString(ctx.userId), ctx.username),
                   leadStart, Max(leadStart, ctx.now),
                   IntervalArgs(ctx.guildId, req.name, location, req.startDatetime, end, req.hoursBefore))
  }

  /** Carries out a plan on the scheduler. */
  function ApplyPlan(s: Scheduler, p: Plan): (r: Scheduler)
    ensures p.Error? ==> r == s
    ensures !p.Interval? ==> r.cache == s.cache
    ensures p.OneOff? ==> r.triggers == s.triggers + {p.jobId}
    ensures p.Interval? ==> r.triggers == s.triggers + {p.job.id}
    ensures p.Interval? ==> Find(r.cache, p.job.userId) == Some(ListOrEmpty(s.cache, p.job.userId) + [p.job])
  {
    match p
    case Error(_) => s
    case OneOff(id, _, _) => CreateOneoff(s, id)
    case Interval(job, _, _, _) => CreateInterval(s, job)
  }

  /** The scheduler after the command, and the reply the requester sees. */
  datatype Response = Response(after: Scheduler, reply: string)

  /**
   The schedule command: a refused request changes nothing and replies with
   the reason; an accepted one registers its trigger (and job) and replies
   with the success message.
   */
  function CreateEventSchedule(s: Scheduler, req: Request, ctx: Context): (r: Response)
    ensures PlanSchedule(req, ctx).Error? ==> r == Response(s, PlanSchedule(req, ctx).msg)
    ensures !PlanSchedule(req, ctx).Error? ==> r.reply == ScheduleCreated
    ensures !PlanSchedule(req, ctx).Error? ==> JobId(JobKey(ctx.guildId, ctx.userId, ctx.interactionId)) in r.after.triggers
    ensures !PlanSchedule(req, ctx).Error? ==> r.after == ApplyPlan(s, PlanSchedule(req, ctx))
    ensures PlanSchedule(req, ctx).Interval? ==>
      Find(r.after.cache, NatToString(ctx.userId))
        == Some(ListOrEmpty(s.cache, NatToString(ctx.userId)) + [PlanSchedule(req, ctx).job])
    ensures req.repeat == Once ==> r.after.cache == s.cache
  {
    var p := PlanSchedule(req, ctx);
    if p.Error? then Response(s, p.msg) else Response(ApplyPlan(s, p), ScheduleCreated)
  }

  /**
   The schedule command as the code runs it. Building the job passes a guild
   id field the job record does not declare, which raises a type error before
   the interval trigger is registered; the error handler then replies with the
   internal-error message. So a recurring request changes nothing.
   */
  function CreateEventScheduleAsWritten(s: Scheduler, req: Request, ctx: Context): (r: Response)
    ensures PlanSchedule(req, ctx).Interval? ==> r == Response(s, InternalError)
    ensures !PlanSchedule(req, ctx).Interval? ==> r == CreateEventSchedule(s, req, ctx)
    ensures r.after.cache == s.cache
  {
    var p := PlanSchedule(req, ctx);
    if p.Interval? then Response(s, InternalError) else CreateEventSchedule(s, req, ctx)
  }

  /**
   A weekly event in voice channel 7: the code as written replies with the
   internal error and caches nothing, while the intended command registers the
   job and lists it for its requester.
   */
  lemma RecurringRequestFailsAsWritten()
    ensures var req := Request("Game night", 100000, Weekly, 1, None, Some(7), None, None);
      var ctx := Context(1, 2, 3, "ana", 0);
      && CreateEventScheduleAsWritten(Initial, req, ctx) == Response(Initial, InternalError)
      && CreateEventSchedule(Initial, req, ctx).reply == ScheduleCreated
      && Find(CreateEventSchedule(Initial, req, ctx).after.cache, "2")
         == Some([Job(JobId(JobKey(1, 2, 3)), "Create event 'Game night'", Weekly, "2", "ana")])
  {
    var req := Request("Game night", 100000, Weekly, 1, None, Some(7), None, None);
    var ctx := Context(1, 2, 3, "ana", 0);
    assert Locations(req) == [Voice(7)];
    var p := PlanSchedule(req, ctx);
    assert p.Interval?;
    assert NatToString(2) == "2";
    var job := Job(JobId(JobKey(1, 2, 3)), "Create event 'Game night'", Weekly, "2", "ana");
    assert p.job == job;
    assert ListOrEmpty(Initial.cache, "2") == [];
    assert Find(CreateEventSchedule(Initial, req, ctx).after.cache, "2") == Some([] + [job]);
    assert [] + [job] == [job];
  }

  /** What listing the jobs shows: a message for no jobs, a job view, or a failure. */
  datatype Listing = NoJobs | JobList(view: JobView.View) | Crashed {
    function Reply(): string
      requires !Crashed?
    {
      if NoJobs? then NoScheduledJobs else ScheduledJobs
    }
  }

  /**
   The listing command: an administrator sees every cached job, anyone else
   their own. A user with no entry gets `None` from `Find`, and taking its
   length fails.
   */
  function Schedules(c: Cache, isAdmin: bool, userId: string): (r: Listing)
    requires ValidCache(c)
    ensures r.Crashed? <==> !isAdmin && userId !in c.lists
    ensures isAdmin ==> (r.NoJobs? <==> GetAll(c) == [])
    ensures !isAdmin && userId in c.lists ==> (r.NoJobs? <==> c.lists[userId] == [])
    ensures isAdmin ==> r.Reply() == (if GetAll(c) == [] then NoScheduledJobs else ScheduledJobs)
    ensures !isAdmin && userId in c.lists ==>
      r.Reply() == (if c.lists[userId] == [] then NoScheduledJobs else ScheduledJobs)
    ensures r.JobList? ==> |r.view.options| > 0 && r.view.items == [JobView.JobSelect]
    ensures r.JobList? && isAdmin ==> r.view == JobView.NewView(GetAll(c))
    ensures r.JobList? && !isAdmin ==> r.view == JobView.NewView(c.lists[userId])
  {
    var jobs := if isAdmin then Some(GetAll(c)) else Find(c, userId);
    match jobs
    case None => Crashed
    case Some(js) => if |js| == 0 then NoJobs else JobList(JobView.NewView(js))
  }

  /** After a job is registered, its requester's listing shows it as the last option. */
  lemma RegisteredJobIsListed(s: Scheduler, job: Job)
    requires ValidCache(s.cache)
    ensures var c := CreateInterval(s, job).cache;
      && Schedules(c, false, job.userId).JobList?
      && var opts := Schedules(c, false, job.userId).view.options;
         opts[|opts| - 1] == JobView.OptionOf(job)
  {
    var c := CreateInterval(s, job).cache;
    assert Find(c, job.userId).Some?;
    var mine := c.lists[job.userId];
    assert mine[|mine| - 1] == job;
  }

  /** After a job is registered, an administrator's listing offers it. */
  lemma RegisteredJobIsListedForAdmin(s: Scheduler, job: Job, adminId: string)
    requires ValidCache(s.cache)
    ensures var c := CreateInterval(s, job).cache;
      && Schedules(c, true, adminId).JobList?
      && JobView.Offers(Schedules(c, true, adminId).view.options, job.id)
  {
    var c := CreateInterval(s, job).cache;
    assert Find(c, job.userId).Some?;
    assert job in c.lists[job.userId];
    GetAllMembership(c, job);
    var all := GetAll(c);
    var i :| 0 <= i < |all| && all[i] == job;
    JobView.OffersJobIds(all, job.id);
  }

  /** The start and end chosen for one firing of a recurring job. */
  datatype Occurrence = Occurrence(start: int, end: Option<int>)

  /**
   The occurrence as the firing code computes it. Before the first start the
   first start and end are used. Afterwards the start is the lead time from
   now; the time of day of the first start is not restored. The end keeps the
   first event's duration.
   */
  function NextOccurrence(firstStart: int, firstEnd: Option<int>, hoursUntil: int, now: int): (o: Occurrence)
    ensures now < firstStart ==> o == Occurrence(firstStart, firstEnd)
    ensures now >= firstStart ==> o.start == now + hoursUntil * SecondsPerHour
    ensures o.end.Some? <==> firstEnd.Some?
    ensures firstEnd.Some? ==> o.end.value - o.start == firstEnd.value - firstStart
    ensures hoursUntil >= 0 ==> o.start >= now
  {
    if now < firstStart then Occurrence(firstStart, firstEnd)
    else
      var start := now + hoursUntil * SecondsPerHour;
      Occurrence(start, if firstEnd.Some? then Some(start + (firstEnd.value - firstStart)) else None)
  }

  /** Seconds since midnight. */
  function TimeOfDay(t: int): int {
    t % SecondsPerDay
  }

  /** The day number. */
  function Day(t: int): int {
    t / SecondsPerDay
  }

  /**
   The occurrence with the first start's time of day restored on the day the
   lead time from now falls on, as the firing code evidently intends.
   */
  function AnchoredOccurrence(firstStart: int, firstEnd: Option<int>, hoursUntil: int, now: int): (o: Occurrence)
    ensures now < firstStart ==> o == Occurrence(firstStart, firstEnd)
    ensures now >= firstStart ==> TimeOfDay(o.start) == TimeOfDay(firstStart)
    ensures now >= firstStart ==> Day(o.start) == Day(now + hoursUntil * SecondsPerHour)
    ensures o.end.Some? <==> firstEnd.Some?
    ensures firstEnd.Some? ==> o.end.value - o.start == firstEnd.value - firstStart
  {
    if now < firstStart then Occurrence(firstStart, firstEnd)
    else
      var candidate := now + hoursUntil * SecondsPerHour;
      var start := Day(candidate) * SecondsPerDay + TimeOfDay(firstStart);
      DayAndTime(Day(candidate), TimeOfDay(firstStart));
      Occurrence(start, if firstEnd.Some? then Some(start + (firstEnd.value - firstStart)) else None)
  }

  lemma DayAndTime(d: int, t: int)
    requires 0 <= t < SecondsPerDay
    ensures Day(d * SecondsPerDay + t) == d
    ensures TimeOfDay(d * SecondsPerDay + t) == t
  {
  }

  /**
   A weekly job first starting 18:00 to 20:00 on day 0, one hour of lead
   time, fired at 09:00 on day 74: the firing code starts the event at 10:00,
   not at 18:00 as the anchored computation does.
   */
  lemma ReplaceDiscardedLosesTimeOfDay()
    ensures NextOccurrence(18 * SecondsPerHour, Some(20 * SecondsPerHour), 1, 74 * SecondsPerDay + 9 * SecondsPerHour)
         == Occurrence(74 * SecondsPerDay + 10 * SecondsPerHour, Some(74 * SecondsPerDay + 12 * SecondsPerHour))
    ensures TimeOfDay(74 * SecondsPerDay + 10 * SecondsPerHour) != TimeOfDay(18 * SecondsPerHour)
    ensures AnchoredOccurrence(18 * SecondsPerHour, Some(20 * SecondsPerHour), 1, 74 * SecondsPerDay + 9 * SecondsPerHour)
         == Occurrence(74 * SecondsPerDay + 18 * SecondsPerHour, Some(74 * SecondsPerDay + 20 * SecondsPerHour))
  {
  }

  /** Keeping the time of day has a price: a firing after that time of day, with
      a lead too short to reach the next day, starts the event in the past. */
  lemma AnchoredOccurrenceMayPrecedeNow()
    ensures AnchoredOccurrence(8 * SecondsPerHour, None, 1, 9 * SecondsPerHour)
         == Occurrence(8 * SecondsPerHour, None)
    ensures NextOccurrence(8 * SecondsPerHour, None, 1, 9 * SecondsPerHour).start == 10 * SecondsPerHour
  {
  }
}

=== FILE: job_view.dfy ===
/**
 The job-list view as a state machine. The view first shows a selection list
 with one option per job. Choosing a job hides the list and shows a Remove and
 a Cancel button. Cancel brings back the list alone; Remove clears the view and
 unschedules the chosen job. The widgets reduce to which items are shown, the
 chosen value, and the unscheduling side effect.
 */
module JobView {
  import opened Wrappers
  import opened Scheduler

  /** One entry of the selection list (`label` is a Dafny keyword, hence `labelText`). */
  datatype SelectOption = SelectOption(labelText: string, value: string, description: string)

  /** The option for a job: its name as label, its id as value, its description. */
  function OptionOf(job: Job): SelectOption {
    SelectOption(job.name, job.id, job.Description())
  }

  /** One option per job, in the order of the jobs. */
  function Options(jobs: seq<Job>): (r: seq<SelectOption>)
    ensures |r| == |jobs|
    ensures forall i :: 0 <= i < |jobs| ==> r[i] == OptionOf(jobs[i])
    decreases |jobs|
  {
    if jobs == [] then [] else [OptionOf(jobs[0])] + Options(jobs[1..])
  }

  /** The selection list offers the value `v`. */
  predicate Offers(options: seq<SelectOption>, v: string) {
    exists i :: 0 <= i < |options| && options[i].value == v
  }

  /** The list built from jobs offers exactly their ids. */
  lemma OffersJobIds(jobs: seq<Job>, v: string)
    ensures Offers(Options(jobs), v) <==> exists i :: 0 <= i < |jobs| && jobs[i].id == v
  {
  }

  /** The items a view can show. */
  datatype Item = JobSelect | RemoveButton | CancelButton

  /** The options offered, the items shown in order, and the value last chosen. */
  datatype View = View(options: seq<SelectOption>, items: seq<Item>, selected: Option<string>)

  /** What the user can do: choose a value, press Remove, press Cancel. */
  datatype Event = Choose(value: string) | PressRemove | PressCancel

  /** The side effect a step has on the scheduler. */
  datatype Effect = NoEffect | Unschedule(id: string)

  datatype Transition = Transition(next: View, effect: Effect)

  /** A fresh view shows only the selection list. */
  function NewView(jobs: seq<Job>): View {
    View(Options(jobs), [JobSelect], None)
  }

  /** Removes the first occurrence of an item; an absent item is ignored. */
  function RemoveItem(items: seq<Item>, it: Item): (r: seq<Item>)
    ensures it !in items ==> r == items
    ensures it in items ==> |r| == |items| - 1
    decreases |items|
  {
    if items == [] then []
    else if items[0] == it then items[1..]
    else [items[0]] + RemoveItem(items[1..], it)
  }

  /**
   One interaction. An item that is not shown cannot be used, and only an
   offered value can be chosen: such events give `None`.
   */
  function Step(v: View, e: Event): (r: Option<Transition>)
    ensures e.Choose? ==> (r.Some? <==> JobSelect in v.items && Offers(v.options, e.value))
    ensures e.PressRemove? ==> (r.Some? <==> RemoveButton in v.items && v.selected.Some?)
    ensures e.PressRemove? && r.Some? ==>
      r.value == Transition(View(v.options, [], v.selected), Unschedule(v.selected.value))
    ensures e.PressCancel? ==> (r.Some? <==> CancelButton in v.items)
    ensures r.Some? ==> r.value.next.options == v.options
    ensures v.items == [] ==> r.None?
    ensures r.Some? && r.value.effect.Unschedule? ==>
      e == PressRemove && r.value.next.items == [] && v.selected == Some(r.value.effect.id)
    ensures e.PressCancel? && r.Some? ==> r.value == Transition(View(v.options, [JobSelect], v.selected), NoEffect)
    ensures e.Choose? && r.Some? ==> r.value.effect == NoEffect && r.value.next.selected == Some(e.value)
  {
    match e
    case Choose(x) =>
      if JobSelect in v.items && Offers(v.options, x) then
        Some(Transition(View(v.options, RemoveItem(v.items, JobSelect) + [RemoveButton, CancelButton], Some(x)), NoEffect))
      else None
    case PressCancel =>
      if CancelButton in v.items then Some(Transition(View(v.options, [JobSelect], v.selected), NoEffect))
      else None
    case PressRemove =>
      if RemoveButton in v.items && v.selected.Some? then
        Some(Transition(View(v.options, [], v.selected), Unschedule(v.selected.value)))
      else None
  }

  /**
   The three shapes a view takes: the selection list alone; the two buttons
   after an offered value was chosen; nothing at all.
   */
  predicate Shape(v: View) {
    || v.items == [JobSelect]
    || (v.items == [RemoveButton, CancelButton] && v.selected.Some? && Offers(v.options, v.selected.value))
    || v.items == []
  }

  /** Choosing from the list hides it and shows exactly Remove and Cancel. */
  lemma ChooseShowsButtons(v: View, x: string)
    requires v.items == [JobSelect] && Offers(v.options, x)
    ensures Step(v, Choose(x)) == Some(Transition(View(v.options, [RemoveButton, CancelButton], Some(x)), NoEffect))
  {
    assert JobSelect in v.items;
    assert RemoveItem(v.items, JobSelect) == [];
    assert RemoveItem(v.items, JobSelect) + [RemoveButton, CancelButton] == [RemoveButton, CancelButton];
  }

  /** Every step keeps the view in one of its shapes, and only an offered id is unscheduled. */
  lemma StepKeepsShape(v: View, e: Event)
    requires Shape(v)
    ensures Step(v, e).Some? ==> Shape(Step(v, e).value.next)
    ensures Step(v, e).Some? && Step(v, e).value.effect.Unschedule? ==> Offers(v.options, Step(v, e).value.effect.id)
  {
  }

  /** The state and the effects after a sequence of interactions; unusable events are ignored. */
  datatype Trace = Trace(last: View, effects: seq<Effect>)

  function Run(v: View, es: seq<Event>): Trace
    decreases |es|
  {
    if es == [] then Trace(v, [])
    else
      match Step(v, es[0])
      case None => Run(v, es[1..])
      case Some(t) =>
        var rest := Run(t.next, es[1..]);
        Trace(rest.last, (if t.effect.NoEffect? then [] else [t.effect]) + rest.effects)
  }

  /**
   However the user interacts, a view unschedules at most one job, and only one
   whose id it offered; a cleared view unschedules nothing.
   */
  lemma {:induction false} RunUnschedulesAtMostOnce(v: View, es: seq<Event>)
    requires Shape(v)
    ensures |Run(v, es).effects| <= (if v.items == [] then 0 else 1)
    ensures forall k :: 0 <= k < |Run(v, es).effects| ==>
      Run(v, es).effects[k].Unschedule? && Offers(v.options, Run(v, es).effects[k].id)
    decreases |es|
  {
    if es != [] {
      match Step(v, es[0])
      case None =>
        RunUnschedulesAtMostOnce(v, es[1..]);
      case Some(t) =>
        StepKeepsShape(v, es[0]);
        RunUnschedulesAtMostOnce(t.next, es[1..]);
    }
  }

  /** Choosing a listed job and pressing Remove unschedules exactly that job. */
  lemma ChooseThenRemove(jobs: seq<Job>, i: nat)
    requires i < |jobs|
    ensures Run(NewView(jobs), [Choose(jobs[i].id), PressRemove]).effects == [Unschedule(jobs[i].id)]
    ensures Run(NewView(jobs), [Choose(jobs[i].id), PressRemove]).last.items == []
  {
    var v := NewView(jobs);
    var es := [Choose(jobs[i].id), PressRemove];
    OffersJobIds(jobs, jobs[i].id);
    ChooseShowsButtons(v, jobs[i].id);
    var v1 := View(v.options, [RemoveButton, CancelButton], Some(jobs[i].id));
    assert es[1..] == [PressRemove];
    assert [PressRemove][1..] == [];
    var v2 := View(v.options, [], Some(jobs[i].id));
    assert Step(v1, PressRemove) == Some(Transition(v2, Unschedule(jobs[i].id)));
    assert Run(v2, []) == Trace(v2, []);
    assert Run(v1, [PressRemove]) == Trace(v2, [Unschedule(jobs[i].id)]);
  }

  /** Choosing a listed job and pressing Cancel brings back the list and unschedules nothing. */
  lemma ChooseThenCancel(jobs: seq<Job>, i: nat)
    requires i < |jobs|
    ensures Run(NewView(jobs), [Choose(jobs[i].id), PressCancel]).effects == []
    ensures Run(NewView(jobs), [Choose(jobs[i].id), PressCancel]).last.items == [JobSelect]
  {
    var v := NewView(jobs);
    var es := [Choose(jobs[i].id), PressCancel];
    OffersJobIds(jobs, jobs[i].id);
    ChooseShowsButtons(v, jobs[i].id);
    var v1 := View(v.options, [RemoveButton, CancelButton], Some(jobs[i].id));
    assert es[1..] == [PressCancel];
    assert [PressCancel][1..] == [];
    var v2 := View(v.options, [JobSelect], Some(jobs[i].id));
    assert Step(v1, PressCancel) == Some(Transition(v2, NoEffect));
    assert Run(v2, []) == Trace(v2, []);
    assert Run(v1, [PressCancel]) == Trace(v2, []);
  }

  /** A view built from jobs only ever unschedules one of those jobs, and at most once. */
  lemma NewViewUnschedulesListedJob(jobs: seq<Job>, es: seq<Event>)
    ensures |Run(NewView(jobs), es).effects| <= 1
    ensures forall k :: 0 <= k < |Run(NewView(jobs), es).effects| ==>
      && Run(NewView(jobs), es).effects[k].Unschedule?
      && exists i :: 0 <= i < |jobs| && jobs[i].id == Run(NewView(jobs), es).effects[k].id
  {
    var effects := Run(NewView(jobs), es).effects;
    RunUnschedulesAtMostOnce(NewView(jobs), es);
    forall k | 0 <= k < |effects|
      ensures effects[k].Unschedule? && exists i :: 0 <= i < |jobs| && jobs[i].id == effects[k].id
    {
      OffersJobIds(jobs, effects[k].id);
    }
  }
}

=== FILE: scheduler.dfy ===
/**
 The scheduler module: job frequencies, the job record, and the in-memory cache
 of interval jobs kept beside the external trigger engine.

 The trigger engine is reduced to the set of trigger ids it holds. The cache is
 a dictionary from user id to that user's jobs in insertion order; since
 listing every job walks the dictionary in key insertion order, the key order
 is kept beside the map.
 */
module Scheduler {
  import opened Wrappers

  /** How often a job fires. */
  datatype JobFrequency = Once | Weekly | Daily {

    /** The enum value; an automatic string enum value is the lower-cased member name. */
    function Value(): string {
      match this
      case Once => "once"
      case Weekly => "weekly"
      case Daily => "daily"
    }

    /** Days between firings, as given to the interval trigger. */
    function Days(): nat {
      if this == Daily then 1 else 0
    }

    /** Weeks between firings, as given to the interval trigger. */
    function Weeks(): nat {
      if this == Weekly then 1 else 0
    }

    predicate IsInterval() {
      this == Daily || this == Weekly
    }
  }

  /** Building a frequency from its value; an unknown value is refused. */
  function FrequencyFromValue(s: string): (r: Option<JobFrequency>)
    ensures r.Some? ==> r.value.Value() == s
    ensures r.None? ==> forall f: JobFrequency :: f.Value() != s
  {
    if s == "once" then Some(Once)
    else if s == "weekly" then Some(Weekly)
    else if s == "daily" then Some(Daily)
    else None
  }

  /** Every frequency is recovered from its own value. */
  lemma FrequencyValueRoundTrip(f: JobFrequency)
    ensures FrequencyFromValue(f.Value()) == Some(f)
  {
  }

  /**
   The interval parameters: a one-off job has neither days nor weeks, and an
   interval job has exactly one of them, equal to 1.
   */
  lemma IntervalParameters(f: JobFrequency)
    ensures f.Days() == 1 <==> f == Daily
    ensures f.Days() == 0 <==> f != Daily
    ensures f.Weeks() == 1 <==> f == Weekly
    ensures f.Weeks() == 0 <==> f != Weekly
    ensures f.IsInterval() <==> f.Days() + f.Weeks() == 1
    ensures !f.IsInterval() <==> f == Once
    ensures f.IsInterval() ==> f.Days() * f.Weeks() == 0
  {
  }

  /** A recurring job as kept in the cache. The creation date is not modelled. */
  datatype Job = Job(id: string, name: string, freq: JobFrequency, userId: string, username: string) {

    /** The text shown for the job in the job list. */
    function Description(): string {
      DescriptionPrefix + freq.Value() + DescriptionSeparator + username
    }
  }

  const DescriptionPrefix: string := "Frequency: "
  const DescriptionSeparator: string := " -- User: "

  /** The description names the frequency and the requester unambiguously. */
  lemma DescriptionDeterminesFrequencyAndUser(a: Job, b: Job)
    requires a.Description() == b.Description()
    ensures a.freq == b.freq
    ensures a.username == b.username
  {
    var da, db := a.Description(), b.Description();
    assert da[|DescriptionPrefix|] == a.freq.Value()[0];
    assert db[|DescriptionPrefix|] == b.freq.Value()[0];
    var p := DescriptionPrefix + a.freq.Value() + DescriptionSeparator;
    assert da == p + a.username;
    assert db == p + b.username;
    assert a.username == da[|p|..];
  }

  /**
   The user-to-jobs dictionary. `lists` maps a user id to that user's jobs in
   insertion order; `order` lists the keys in the order they were first added.
   */
  datatype Cache = Cache(order: seq<string>, lists: map<string, seq<Job>>)

  const EmptyCache := Cache([], map[])

  /** The key order names every key exactly once. */
  predicate ValidCache(c: Cache) {
    && (forall i, j :: 0 <= i < j < |c.order| ==> c.order[i] != c.order[j])
    && (forall u :: u in c.lists ==> u in c.order)
    && (forall u :: u in c.order ==> u in c.lists)
  }

  /** Every job is filed under the user who requested it. */
  ghost predicate FiledByOwner(c: Cache) {
    forall u, j :: u in c.lists && j in c.lists[u] ==> j.userId == u
  }

  /** Dictionary assignment: an existing key keeps its place, a new key goes last. */
  function Assign(c: Cache, u: string, jobs: seq<Job>): (r: Cache)
    ensures r.lists == c.lists[u := jobs]
    ensures ValidCache(c) ==> ValidCache(r)
  {
    Cache(if u in c.lists then c.order else c.order + [u], c.lists[u := jobs])
  }

  /** A user's jobs in insertion order, or `None` when the user has no entry. */
  function Find(c: Cache, u: string): (r: Option<seq<Job>>)
    ensures r.None? <==> u !in c.lists
    ensures r.Some? ==> r.value == c.lists[u]
  {
    if u in c.lists then Some(c.lists[u]) else None
  }

  /** The jobs of the users in `order`, one user's list after another. */
  function Flatten(order: seq<string>, lists: map<string, seq<Job>>): (r: seq<Job>)
    requires forall u :: u in order ==> u in lists
    ensures forall j :: j in r ==> exists u :: u in order && j in lists[u]
    decreases |order|
  {
    if order == [] then [] else lists[order[0]] + Flatten(order[1..], lists)
  }

  /** Every cached job, one user's list after another in dictionary order. */
  function GetAll(c: Cache): (r: seq<Job>)
    requires ValidCache(c)
    ensures forall j :: j in r ==> exists u :: u in c.lists && j in c.lists[u]
  {
    Flatten(c.order, c.lists)
  }

  lemma {:induction false} FlattenContains(order: seq<string>, lists: map<string, seq<Job>>, u: string, j: Job)
    requires forall v :: v in order ==> v in lists
    requires u in order && j in lists[u]
    ensures j in Flatten(order, lists)
    decreases |order|
  {
    if order[0] != u {
      FlattenContains(order[1..], lists, u, j);
    }
  }

  /** A job is listed by `GetAll` exactly when some user's list holds it. */
  lemma GetAllMembership(c: Cache, j: Job)
    requires ValidCache(c)
    ensures j in GetAll(c) <==> exists u :: u in c.lists && j in c.lists[u]
  {
    if u :| u in c.lists && j in c.lists[u] {
      FlattenContains(c.order, c.lists, u, j);
    }
  }

  lemma {:induction false} FlattenSnoc(order: seq<string>, lists: map<string, seq<Job>>, u: string)
    requires forall v :: v in order ==> v in lists
    requires u in lists
    ensures Flatten(order + [u], lists) == Flatten(order, lists) + lists[u]
    decreases |order|
  {
    if order == [] {
      assert order + [u] == [u];
    } else {
      assert (order + [u])[1..] == order[1..] + [u];
      FlattenSnoc(order[1..], lists, u);
    }
  }

  lemma {:induction false} FlattenFrame(order: seq<string>, lists: map<string, seq<Job>>, u: string, jobs: seq<Job>)
    requires forall v :: v in order ==> v in lists
    requires u !in order
    ensures Flatten(order, lists[u := jobs]) == Flatten(order, lists)
    decreases |order|
  {
    if order != [] {
      FlattenFrame(order[1..], lists, u, jobs);
    }
  }

  /** Replacing one user's list changes the flattened jobs by exactly that list. */
  lemma {:induction false} FlattenReplace(order: seq<string>, lists: map<string, seq<Job>>, u: string, jobs: seq<Job>)
    requires forall v :: v in order ==> v in lists
    requires forall i, j :: 0 <= i < j < |order| ==> order[i] != order[j]
    requires u in order
    ensures multiset(Flatten(order, lists[u := jobs])) + multiset(lists[u])
         == multiset(Flatten(order, lists)) + multiset(jobs)
    decreases |order|
  {
    var lists' := lists[u := jobs];
    var rest := order[1..];
    assert Flatten(order, lists') == lists'[order[0]] + Flatten(rest, lists');
    assert Flatten(order, lists) == lists[order[0]] + Flatten(rest, lists);
    if order[0] == u {
      assert u !in rest by {
        forall k | 0 <= k < |rest|
          ensures rest[k] != u
        {
          assert order[k + 1] != order[0];
        }
      }
      FlattenFrame(rest, lists, u, jobs);
    } else {
      assert u in rest;
      assert forall i, j :: 0 <= i < j < |rest| ==> rest[i] != rest[j] by {
        forall i, j | 0 <= i < j < |rest|
          ensures rest[i] != rest[j]
        {
          assert rest[i] == order[i + 1] && rest[j] == order[j + 1];
        }
      }
      FlattenReplace(rest, lists, u, jobs);
      assert lists'[order[0]] == lists[order[0]];
      var head := multiset(lists[order[0]]);
      calc {
        multiset(Flatten(order, lists')) + multiset(lists[u]);
        head + multiset(Flatten(rest, lists')) + multiset(lists[u]);
        head + (multiset(Flatten(rest, lists')) + multiset(lists[u]));
        head + (multiset(Flatten(rest, lists)) + multiset(jobs));
        multiset(Flatten(order, lists)) + multiset(jobs);
      }
    }
  }

  lemma MultisetCancel<T>(a: multiset<T>, b: multiset<T>, x: multiset<T>)
    requires a + x == b + x
    ensures a == b
  {
    forall z
      ensures a[z] == b[z]
    {
      assert (a + x)[z] == (b + x)[z];
    }
  }

  /** The scheduler: the trigger ids the engine holds, and the cache of interval jobs. */
  datatype Scheduler = Scheduler(triggers: set<string>, cache: Cache)

  /** At start-up the engine holds no trigger and the cache is empty. */
  const Initial := Scheduler({}, EmptyCache)

  /** The start-up state is well formed, holds no trigger, and lists no job for anyone. */
  lemma InitialIsEmpty(u: string)
    ensures ValidCache(Initial.cache) && FiledByOwner(Initial.cache)
    ensures Initial.triggers == {}
    ensures GetAll(Initial.cache) == []
    ensures Find(Initial.cache, u) == None
  {
  }

  /** Registers a one-off trigger; the cache is not touched. */
  function CreateOneoff(s: Scheduler, jobId: string): (r: Scheduler)
    ensures r.cache == s.cache
    ensures jobId in r.triggers
    ensures forall t :: t != jobId ==> (t in r.triggers <==> t in s.triggers)
  {
    Scheduler(s.triggers + {jobId}, s.cache)
  }

  /** The user's list before a registration: what is cached, or empty if nothing is. */
  function ListOrEmpty(c: Cache, u: string): seq<Job> {
    if u in c.lists then c.lists[u] else []
  }

  /**
   Registers an interval trigger and appends the job to its user's list,
   creating the list first when the user has none. No check is made for a job
   with the same id already in the cache.
   */
  function CreateInterval(s: Scheduler, job: Job): (r: Scheduler)
    ensures r.triggers == s.triggers + {job.id}
    ensures Find(r.cache, job.userId) == Some(ListOrEmpty(s.cache, job.userId) + [job])
    ensures forall u :: u != job.userId ==> Find(r.cache, u) == Find(s.cache, u)
    ensures r.cache.order == if job.userId in s.cache.lists then s.cache.order else s.cache.order + [job.userId]
    ensures ValidCache(s.cache) ==> ValidCache(r.cache)
  {
    var c1 := if Find(s.cache, job.userId).None? then Assign(s.cache, job.userId, []) else s.cache;
    var c2 := Assign(c1, job.userId, c1.lists[job.userId] + [job]);
    Scheduler(s.triggers + {job.id}, c2)
  }

  /** Registration keeps every job filed under its own requester. */
  lemma CreateIntervalFiledByOwner(s: Scheduler, job: Job)
    requires FiledByOwner(s.cache)
    ensures FiledByOwner(CreateInterval(s, job).cache)
  {
  }

  /** Listing every job after a registration lists one more job, the new one. */
  lemma CreateIntervalGetAll(s: Scheduler, job: Job)
    requires ValidCache(s.cache)
    ensures multiset(GetAll(CreateInterval(s, job).cache)) == multiset(GetAll(s.cache)) + multiset{job}
  {
    var c, r := s.cache, CreateInterval(s, job).cache;
    var u := job.userId;
    var jobs := ListOrEmpty(c, u) + [job];
    assert r.lists == c.lists[u := jobs];
    if u in c.lists {
      FlattenReplace(c.order, c.lists, u, jobs);
      assert multiset(jobs) == multiset(c.lists[u]) + multiset{job};
      MultisetCancel(multiset(GetAll(r)), multiset(GetAll(c)) + multiset{job}, multiset(c.lists[u]));
    } else {
      CreateIntervalGetAllNewUser(s, job);
    }
  }

  /** A first registration for a user lists the new job after every other job. */
  lemma CreateIntervalGetAllNewUser(s: Scheduler, job: Job)
    requires ValidCache(s.cache)
    requires job.userId !in s.cache.lists
    ensures GetAll(CreateInterval(s, job).cache) == GetAll(s.cache) + [job]
  {
    var c, r := s.cache, CreateInterval(s, job).cache;
    var u := job.userId;
    assert ListOrEmpty(c, u) + [job] == [job];
    assert r.lists == c.lists[u := [job]];
    assert r.order == c.order + [u];
    FlattenFrame(c.order, c.lists, u, [job]);
    FlattenSnoc(c.order, r.lists, u);
  }

  /** Registering the same job twice leaves two records for one trigger. */
  lemma CreateIntervalTwice(s: Scheduler, job: Job)
    ensures var r := CreateInterval(CreateInterval(s, job), job);
      && r.triggers == s.triggers + {job.id}
      && Find(r.cache, job.userId) == Some(ListOrEmpty(s.cache, job.userId) + [job, job])
  {
    var r1 := CreateInterval(s, job);
    var before := ListOrEmpty(s.cache, job.userId);
    assert ListOrEmpty(r1.cache, job.userId) == before + [job];
    assert before + [job] + [job] == before + [job, job];
  }

  /** The jobs of a list whose id differs from `id`, in their original order. */
  function WithoutId(jobs: seq<Job>, id: string): (r: seq<Job>)
    ensures |r| <= |jobs|
    ensures forall j :: j in r <==> j in jobs && j.id != id
    decreases |jobs|
  {
    if jobs == [] then [] else (if jobs[0].id == id then [] else [jobs[0]]) + WithoutId(jobs[1..], id)
  }

  /** Filtering distributes over concatenation, so relative order is kept. */
  lemma {:induction false} WithoutIdConcat(a: seq<Job>, b: seq<Job>, id: string)
    ensures WithoutId(a + b, id) == WithoutId(a, id) + WithoutId(b, id)
    decreases |a|
  {
    if a == [] {
      assert a + b == b;
    } else {
      var head := if a[0].id == id then [] else [a[0]];
      var x, y := WithoutId(a[1..], id), WithoutId(b, id);
      assert (a + b)[0] == a[0];
      assert (a + b)[1..] == a[1..] + b;
      calc {
        WithoutId(a + b, id);
        head + WithoutId(a[1..] + b, id);
        { WithoutIdConcat(a[1..], b, id); }
        head + (x + y);
        (head + x) + y;
        WithoutId(a, id) + y;
      }
    }
  }

  /** A list holding no job with the id is left as it is. */
  lemma {:induction false} WithoutIdKeeps(jobs: seq<Job>, id: string)
    requires forall j :: j in jobs ==> j.id != id
    ensures WithoutId(jobs, id) == jobs
    decreases |jobs|
  {
    if jobs != [] {
      WithoutIdKeeps(jobs[1..], id);
    }
  }

  /** Removing the same id twice removes nothing more. */
  lemma WithoutIdIdempotent(jobs: seq<Job>, id: string)
    ensures WithoutId(WithoutId(jobs, id), id) == WithoutId(jobs, id)
  {
    WithoutIdKeeps(WithoutId(jobs, id), id);
  }

  /** The exceptions removal can raise: unknown trigger id, or user without an entry. */
  datatype RemoveError = JobLookupError | KeyError

  /** The state after a removal, and the exception it raised, if any. */
  datatype Removal = Removal(after: Scheduler, error: Option<RemoveError>)

  /**
   Removes the trigger, then filters the user's list by id. An unknown trigger
   id fails before anything changes; a user with no entry fails after the
   trigger is already gone.
   */
  function Remove(s: Scheduler, id: string, userId: string): (r: Removal)
    ensures id !in s.triggers ==> r == Removal(s, Some(JobLookupError))
    ensures id in s.triggers ==> r.after.triggers == s.triggers - {id}
    ensures id in s.triggers && userId !in s.cache.lists ==> r.error == Some(KeyError) && r.after.cache == s.cache
    ensures r.error.None? <==> id in s.triggers && userId in s.cache.lists
    ensures r.error.None? ==> Find(r.after.cache, userId) == Some(WithoutId(s.cache.lists[userId], id))
    ensures forall u :: u != userId ==> Find(r.after.cache, u) == Find(s.cache, u)
    ensures r.after.cache.order == s.cache.order
    ensures ValidCache(s.cache) ==> ValidCache(r.after.cache)
  {
    if id !in s.triggers then Removal(s, Some(JobLookupError))
    else
      var t := s.triggers - {id};
      if userId !in s.cache.lists then Removal(Scheduler(t, s.cache), Some(KeyError))
      else Removal(Scheduler(t, Assign(s.cache, userId, WithoutId(s.cache.lists[userId], id))), None)
  }

  /**
   When every cached job with the id belongs to the user, a successful removal
   leaves no cached job with that id, and every other job stays listed.
   */
  lemma RemoveErasesId(s: Scheduler, id: string, userId: string)
    requires ValidCache(s.cache) && FiledByOwner(s.cache)
    requires id in s.triggers && userId in s.cache.lists
    requires forall j :: j in GetAll(s.cache) && j.id == id ==> j.userId == userId
    ensures forall j :: j in GetAll(Remove(s, id, userId).after.cache) ==> j.id != id
    ensures forall j :: j in GetAll(s.cache) && j.id != id ==> j in GetAll(Remove(s, id, userId).after.cache)
  {
    var r := Remove(s, id, userId).after.cache;
    forall j | j in GetAll(r)
      ensures j.id != id
    {
      var u :| u in r.lists && j in r.lists[u];
      if u != userId {
        assert Find(r, u) == Find(s.cache, u);
        GetAllMembership(s.cache, j);
      }
    }
    forall j | j in GetAll(s.cache) && j.id != id
      ensures j in GetAll(r)
    {
      var u :| u in s.cache.lists && j in s.cache.lists[u];
      assert Find(s.cache, u).Some?;
      assert Find(r, u).Some?;
      GetAllMembership(r, j);
    }
  }

  /** Removal keeps every job filed under its own requester. */
  lemma RemoveFiledByOwner(s: Scheduler, id: string, userId: string)
    requires FiledByOwner(s.cache)
    ensures FiledByOwner(Remove(s, id, userId).after.cache)
  {
  }

  /** Once a user's last job is removed, `Find` gives an empty list, not `None`. */
  lemma FindAfterLastRemoval(s: Scheduler, job: Job)
    requires job.userId !in s.cache.lists
    ensures var r := Remove(CreateInterval(s, job), job.id, job.userId);
      && r.error.None?
      && Find(r.after.cache, job.userId) == Some([])
      && job.id !in r.after.triggers
  {
  }
}

=== FILE: text.dfy ===
/**
 Text helpers: the decimal rendering Python's `str()` gives a non-negative
 integer, the reading that undoes it, and splitting a string at a separator.
 Job ids are built from these pieces, and reading them back shows the id
 format is unambiguous.
 */
module Text {
  import opened Wrappers

  predicate IsDigit(c: char) {
    '0' <= c <= '9'
  }

  predicate AllDigits(s: string) {
    forall i :: 0 <= i < |s| ==> IsDigit(s[i])
  }

  function DigitChar(d: nat): (c: char)
    requires d < 10
    ensures IsDigit(c)
    ensures c as int - '0' as int == d
  {
    (d + '0' as int) as char
  }

  function DigitValue(c: char): (d: nat)
    requires IsDigit(c)
    ensures d < 10
  {
    c as int - '0' as int
  }

  /** `str(n)` for a non-negative integer: at least one digit, and no leading zero. */
  function NatToString(n: nat): (s: string)
    ensures |s| >= 1 && AllDigits(s)
    ensures s[0] == '0' <==> n == 0
    ensures n == 0 ==> s == "0"
    decreases n
  {
    if n < 10 then [DigitChar(n)] else NatToString(n / 10) + [DigitChar(n % 10)]
  }

  /** The value of a string of decimal digits, most significant first. */
  function DigitsValue(s: string): nat
    requires AllDigits(s)
    decreases |s|
  {
    if |s| == 0 then 0 else 10 * DigitsValue(s[..|s| - 1]) + DigitValue(s[|s| - 1])
  }

  /** Reads a non-empty string of decimal digits; anything else is rejected. */
  function ParseNat(s: string): (r: Option<nat>)
    ensures r.Some? <==> |s| >= 1 && AllDigits(s)
  {
    if |s| >= 1 && AllDigits(s) then Some(DigitsValue(s)) else None
  }

  lemma {:induction false} ParseNatToString(n: nat)
    ensures ParseNat(NatToString(n)) == Some(n)
    decreases n
  {
    var s := NatToString(n);
    if n >= 10 {
      ParseNatToString(n / 10);
      assert s[..|s| - 1] == NatToString(n / 10);
      assert DigitValue(s[|s| - 1]) == n % 10;
    } else {
      assert s[..|s| - 1] == [];
      assert DigitsValue(s) == DigitValue(s[0]) == n;
    }
  }

  predicate Free(s: string, sep: char) {
    forall i :: 0 <= i < |s| ==> s[i] != sep
  }

  /** Python's `s.split(sep)`: the pieces between separators, always at least one. */
  function Split(s: string, sep: char): (parts: seq<string>)
    ensures |parts| >= 1
    ensures Free(s, sep) ==> parts == [s]
    decreases |s|
  {
    if |s| == 0 then [""]
    else
      var rest := Split(s[1..], sep);
      if s[0] == sep then [""] + rest
      else
        assert Free(s, sep) ==> Free(s[1..], sep);
        assert [s[0]] + s[1..] == s;
        [[s[0]] + rest[0]] + rest[1..]
  }

  /** A separator-free piece followed by the separator splits off as one part. */
  lemma {:induction false} SplitAfterPiece(a: string, sep: char, b: string)
    requires Free(a, sep)
    ensures Split(a + [sep] + b, sep) == [a] + Split(b, sep)
    decreases |a|
  {
    var s := a + [sep] + b;
    if |a| == 0 {
      assert s[1..] == b;
    } else {
      assert s[1..] == a[1..] + [sep] + b;
      SplitAfterPiece(a[1..], sep, b);
      assert [a[0]] + a[1..] == a;
    }
  }

  lemma DigitsAreFree(s: string, sep: char)
    requires AllDigits(s) && !IsDigit(sep)
    ensures Free(s, sep)
  {
  }
}

=== FILE: wrappers.dfy ===
/** The optional-value datatype the rest of the model uses for Python's `None`. */
module Wrappers {

  /** `None` or a present value, as a Python attribute or return value that may be `None`. */
  datatype Option<+T> = None | Some(value: T)
}
